=== FILE: README.md ===
# BitVoicer LED-notes firmware, modelled in Dafny

The firmware `arduinocode.c` connects a microcontroller to BitVoicer Server
through the BitVoicer Server Protocol (BVSP). Each pass of `loop()` does four
things in order:

1. It services the link: `keepAlive`, then `receive`. `receive` may fire the
   frame-received, mode-changed and stream-received callbacks.
2. It keeps microphone capture in step with the server's speech-recognition
   engine (SRE), and forwards captured audio upstream.
3. It drains the speaker.
4. While "LED notes" are playing, it lights the LED of the current note.
   The notes follow a fixed 11.5 s timeline.

The model is written in the functional style. The firmware's globals and the
library flags it reads become one immutable record, `Board.Firmware`. It holds:

- the recording flag;
- the inbound and outbound modes;
- `playLEDNotes` and `playStartTime`;
- the last value analog-written to each pin.

Every handler is a pure function. It takes that record, the answers of the
collaborators, and the clock reading `now`. It returns a `Board.Step`: the new
record plus the ordered list of collaborator calls it made (`Board.Action`).

Modules:

- `Board` holds the constants, the state record, the action list, and
  `ApplyWrites`. `ApplyWrites` computes a pin map by performing the analog
  writes of an action list in order.
- `LedNotes` holds `playNextLEDNote` and `allLEDsOff`. The if/else ladder is
  modelled as written (`NoteAt`). It is also stated as a declarative table of
  (threshold, LED) rows (`Schedule`) with a scan (`Governing`), and proved
  equal to that table.
- `Commands` holds `BVSP_frameReceived`. Decoding a frame (`Decode`) is split
  from carrying it out (`Execute`), and the handler as written is proved to be
  their composition.
- `Reactors` holds `BVSP_modeChanged` and `BVSP_streamReceived`.
- `MainLoop` holds `loop()`. The callbacks that one `receive()` fires are an
  explicit list of `Event`s, handled in order in the same pass. `Run` chains
  passes together.

Collaborator answers are parameters:

- `sre` is `isSREAvailable()`.
- `micAvailable` is `bvsm.available`.
- `micRead` is the count `bvsm.read` returns.
- `received` is the bytes `getReceivedBytes` hands over. Its length is the
  count returned.
- `byteValue` is `getReceivedByte()`.
- `got` is the count `getReceivedStream` returns.

The clock is `now`, a 32-bit `millis()` value. The elapsed time is the
board's unsigned 32-bit subtraction, `(now - start) mod 2^32`.

The ladder's row for 1470 ms lights the red LED (arduinocode.c:286-287), so
[1470, 1930) is red. For example, 1500 ms after the trigger red is lit, and
`MainLoop.TimelineScenario` proves it.

## Model

| member | source | states |
|---|---|---|
| LedNotes.LadderIsTable | arduinocode.c:246-289 | At every elapsed time below 11500 ms, the if/else ladder picks the same LED as the declarative (threshold, LED) table. |
| LedNotes.LadderMatchesRow | arduinocode.c:246-289 | Suppose the elapsed time has reached a row's threshold and has not reached the threshold of any row before it. Then the ladder lights that row's LED. |
| LedNotes.TableStretches | arduinocode.c:246-289 | The table's note is green on [1000, 1470), red on [1470, 1930) and red on [9900, 11500). So 1500 ms is red. |
| LedNotes.BeforeEveryRow | arduinocode.c:286-289 | A time below every threshold in the table is below 1000 ms, and the ladder lights nothing then. |
| LedNotes.Governing | arduinocode.c:246-289 | The scan returns the first row whose threshold has been reached. Every row before it has a larger threshold than the elapsed time. It returns nothing exactly when no threshold has been reached. |
| LedNotes.GoverningIsLargest | arduinocode.c:246-289 | In a descending table, the row the scan returns has the largest threshold not above the elapsed time. |
| LedNotes.DescendingBelow | arduinocode.c:246-289 | In a table where each row's threshold is below the previous row's, every later row has a smaller threshold than every earlier row. |
| LedNotes.ScheduleDescending | arduinocode.c:246-289 | The timeline table is ordered from the largest threshold to the smallest, as the ladder tests them. |
| LedNotes.TickNote | arduinocode.c:241-289 | A tick at or past 11500 ms lights no note, and neither does a tick below 1000 ms. Below 11500 ms the tick's note is the table's note. |
| LedNotes.Elapsed | arduinocode.c:234 | Elapsed time is the plain difference when the clock has not wrapped since the start. When it has wrapped, elapsed time is the distance to 2^32 plus the new reading. |
| LedNotes.NoteAt | arduinocode.c:246-289 | The ladder as written lights no LED exactly when the elapsed time is below 1000 ms. |
| LedNotes.NoteWrites | arduinocode.c:241-289 | After clearing, a tick makes at most one further write, and that write is to an LED pin. |
| LedNotes.ElapsedLater | arduinocode.c:234 | Elapsed time measured d ms after a start is d, even when `millis()` wraps in between. |
| LedNotes.AllLEDsOff | arduinocode.c:293-298 | It writes 0 to each of the three LED pins, and it writes nothing else. |
| LedNotes.ShowNote | arduinocode.c:237-289 | After clearing the LEDs and showing a note, at most one LED is lit, at 255. The lit LED is exactly the note shown, and pins other than the LED pins are unchanged. |
| LedNotes.TickPins | arduinocode.c:237-289 | Performing a tick's writes in order gives the same pin map as clearing the LEDs and then lighting the tick's note. |
| LedNotes.PlayNextLEDNote | arduinocode.c:230-290 | A tick first turns off all three LEDs, and writes only LED pins. Its pin map is the result of its own writes. It changes nothing but the pins and the flag. Notes keep playing exactly when they were playing and the elapsed time is below 11500 ms. |
| LedNotes.TickShowsNote | arduinocode.c:234-289 | A tick leaves the LED pins cleared, with the note for the elapsed time lit. |
| LedNotes.TickTerminates | arduinocode.c:241-245 | At or past 11500 ms, a tick clears `playLEDNotes` and leaves all three LEDs at 0. |
| LedNotes.TickSingleLit | arduinocode.c:237-289 | After any tick, every LED pin has been written, at most one LED is lit, and a lit LED is at 255. |
| LedNotes.TickPreRoll | arduinocode.c:286-289 | Below 1000 ms, a tick lights nothing and the notes keep playing. |
| LedNotes.TickFollowsTable | arduinocode.c:246-289 | Below 11500 ms, an LED is lit exactly when it is the table's note for the elapsed time, the one paired with the largest threshold reached. |
| LedNotes.TickLeavesOtherPins | arduinocode.c:237-289 | A tick leaves every pin other than the three LED pins as it was. |
| Commands.Decode | arduinocode.c:178-203 | A frame is a pin write exactly when it is a binary frame for which the protocol hands over exactly 2 bytes. The write is of byte 1 to pin byte 0. A frame is a notes start exactly when it is a byte frame carrying 255. |
| Commands.Execute | arduinocode.c:188-200 | A pin write emits that single analog write and updates only that pin. A notes start sets `playLEDNotes` and sets the start time to `now`. Nothing else changes. |
| Commands.FrameReceived | arduinocode.c:178-203 | The handler is decode followed by execute. It writes a pin exactly for a 2-byte binary frame, and that write leaves everything else unchanged. A 255 byte restarts the notes at `now`, even if they are already playing. Every other frame changes nothing. |
| Reactors.ModeChanged | arduinocode.c:206-214 | The handler records the new outbound mode. It asks the speaker to finish playing exactly when that mode is framed, and it does nothing else. |
| Reactors.StreamReceived | arduinocode.c:217-225 | The handler first fetches up to `SPEAKER_BUFFER_SIZE` bytes. It then calls enqueue exactly once, always (even when nothing was handed over), with exactly the count handed over. It leaves the state unchanged. |
| MainLoop.Dispatch | arduinocode.c:102-110 | Each callback reaches the handler registered for it. A data frame runs the frame handler. A mode change records the new outbound mode and finishes playback exactly when that mode is framed. A stream event fetches the stream and enqueues exactly the bytes handed over, leaving the state as it was. Only a stream event enqueues anything. A handler only writes pins, finishes playback, fetches and enqueues stream data. It leaves capture and the inbound mode alone, and its pin map is the result of its writes. |
| MainLoop.DispatchAll | arduinocode.c:128 | Handling the callbacks that one `receive()` fires, in order, keeps the same guarantees as handling one. The audio enqueued is the total of the stream events' byte counts. Playback is finished exactly when one of the callbacks is a change to framed mode. |
| Reactors.EnqueuedAppend | arduinocode.c:217-225 | The audio enqueued by two runs of actions adds up. |
| MainLoop.StreamSafeIffNoFramedSend | arduinocode.c:145-154 | Replaying the actions and tracking the inbound mode finds no framed send exactly when every send is preceded by actions that leave the inbound mode at stream. |
| MainLoop.StreamSafeAppend | arduinocode.c:145-154 | The mode tracking over two concatenated action lists is the tracking over the first list followed by the tracking over the second. |
| MainLoop.EnsureRecording | arduinocode.c:136-140 | If capture is not running, the step selects audio input 7 and then starts recording. Otherwise it does nothing. |
| MainLoop.Forward | arduinocode.c:143-155 | The step makes exactly one mode switch, to stream, when the mode was framed, and none otherwise. It is three actions long from framed and two from stream. It reads the microphone exactly once, asking for at most `MIC_BUFFER_SIZE` bytes. It then sends exactly once, as the final action, carrying the count read. It never sends while framed. |
| MainLoop.ForwardActions | arduinocode.c:147-154 | From either inbound mode, the optional switch followed by read and send holds one read and one send, in that order. It is stream-safe and leaves the mode at stream. |
| MainLoop.StopCapture | arduinocode.c:157-163 | The step stops recording exactly when capture was running. It calls `stopRecording` once then, does nothing otherwise, and makes no other call. |
| MainLoop.StartThenForward | arduinocode.c:136-154 | Starting capture and then forwarding is stream-safe and ends in stream mode. It switches the mode, always to stream, exactly when the mode was framed, and it writes no pin. |
| MainLoop.Arbitrate | arduinocode.c:132-163 | After the step, capture runs exactly when an SRE was available. The inbound mode becomes stream exactly when an SRE and samples are both available, and otherwise stays as it was. The step switches the mode, always to stream, exactly when an SRE and samples are available and the mode was framed. It writes no pin, never sends while framed, and leaves the inbound mode its switches establish. It calls only the microphone and the protocol's mode switch and send. Its length is fixed in every case: 2 calls to start capture, 3 or 2 to forward (from framed or from stream), and 1 to stop. With the fixed first and last calls, this pins down the whole list. |
| MainLoop.ArbitrateCapture | arduinocode.c:132-163 | Recording starts exactly when an SRE is available and capture was off, and the input is selected first. Recording stops exactly when no SRE is available and capture was on. |
| MainLoop.ArbitrateReadsOnce | arduinocode.c:132-155 | The capture step reads the microphone once and sends once when an SRE and samples are both available, and otherwise reads and sends nothing. |
| MainLoop.ArbitrateSends | arduinocode.c:143-155 | A send happens exactly when an SRE is available and samples are available. It carries the count read, right after a read of at most 64 bytes. With no SRE there is no read and no send. |
| MainLoop.NotesTick | arduinocode.c:171-174 | The sequencer runs exactly while `playLEDNotes` is set. When it runs, the pins show the table's note for the time since the notes started. Playing continues exactly while that time is before the cut-off. Its writes touch only LED pins. |
| MainLoop.LoopStep | arduinocode.c:119-175 | A pass starts with keep-alive and receive. It always drains the speaker, and after the drain it does nothing but write LED pins. |
| MainLoop.LoopCaptureFollowsSre | arduinocode.c:132-163 | After a pass, capture runs exactly when an SRE was available. |
| MainLoop.LoopSwitches | arduinocode.c:132-163 | A pass switches the inbound mode only to forward audio. It switches, to stream, exactly when an SRE and samples are available and the mode was framed. A pass that forwards nothing leaves the mode as it found it. |
| MainLoop.LoopNeverSendsFramed | arduinocode.c:145-154 | No pass sends a stream while the inbound mode is framed. The mode a pass leaves is the one its switches establish. |
| MainLoop.LoopNoFramedSend | arduinocode.c:145-154 | Every send in a pass is preceded by actions that leave the inbound mode at stream. |
| MainLoop.LoopShape | arduinocode.c:119-175 | Within a pass, the actions of the callbacks, of keep-alive and receive, and of the drain and LED step neither switch the inbound mode, read the microphone nor send. So stream safety, the inbound mode a pass leaves, and every read and send come from the capture step alone. |
| MainLoop.LoopSends | arduinocode.c:132-155 | A pass sends exactly when an SRE is available and samples are available, always the count read. It then makes exactly one microphone read and one send; otherwise it makes none. |
| MainLoop.LoopReadThenSend | arduinocode.c:151-154 | When a pass sends, the send comes immediately after the microphone read of at most 64 bytes. |
| MainLoop.LoopPinsFollowWrites | arduinocode.c:119-175 | The pin map a pass leaves is the result of its analog writes in order. |
| MainLoop.LoopSingleLit | arduinocode.c:171-174 | While notes are playing, a pass leaves at most one LED lit, at 255. |
| MainLoop.LoopFollowsTable | arduinocode.c:171-174 | While notes are playing after the callbacks, a pass shows the table's note for the time since the notes started. It keeps playing exactly while that time is before 11500 ms. |
| MainLoop.LoopEnqueues | arduinocode.c:119-175 | A pass hands the speaker exactly the audio that the server streamed during its callbacks. |
| MainLoop.LoopWritesPin | arduinocode.c:182-189 | A pass whose one callback is a 2-byte binary frame leaves the named pin at the named value, when the pin is not an LED pin. |
| MainLoop.LoopNotesEnd | arduinocode.c:171-174 | A pass that finds the timeline over clears `playLEDNotes` and leaves every LED dark. |
| MainLoop.Run | arduinocode.c:119-175 | Over any number of passes, the pin map is the result of all their analog writes, in order. |
| MainLoop.NoFramesNoWrites | arduinocode.c:178-225 | Callbacks that are not data frames write no pin and leave `playLEDNotes` alone. |
| MainLoop.IdlePass | arduinocode.c:171-174 | A pass with the notes off and no data frame writes no pin and keeps the notes off. |
| MainLoop.IdleRunWritesNoPin | arduinocode.c:171-174 | While the notes are off and no data frame arrives, passes write no pin and the notes stay off. |
| MainLoop.InitialRunWritesNoPin | arduinocode.c:76-77 | Starting from the declared initial state, with `playLEDNotes` false, no pass writes a pin until a data frame arrives. |
| MainLoop.RunNeverSendsFramed | arduinocode.c:119-175 | Over any number of passes, no stream is sent while the inbound mode is framed. |
| MainLoop.RunCaptureFollowsSre | arduinocode.c:132-163 | After any run of passes, capture runs exactly when the last pass found an SRE available. |
| MainLoop.RetriggerRestartsTimeline | arduinocode.c:195-201 | A 255 byte restarts the timeline whatever state it finds. Ticks a given time after the trigger do the same thing and light the table's note for that time. |
| MainLoop.LoopKeepsStartTime | arduinocode.c:171-174 | A pass with no callbacks keeps the start time. Notes keep playing until a tick finds the timeline over. |
| MainLoop.LoopTriggerStarts | arduinocode.c:197-201 | A pass whose callback is the 255 byte leaves the notes playing from that pass's time. |
| MainLoop.TimelineScenario | arduinocode.c:241-289 | Trigger at 0 ms. At 1500 ms red is lit, not yellow. At 12000 ms the notes have stopped and every LED is dark. |

## Left out

- The Bridge, Yun, HTTP and Console includes at arduinocode.c:1-21 are left out. Nothing uses them.
- `setup()` (arduinocode.c:79-117) is left out. It covers pin modes, the serial baud rate, `bvsp.begin` with the status timeout and interval (arduinocode.c:38-39), microphone and DAC initialisation, and the initial `digitalWrite(LOW)` of the LEDs. All of this is hardware and library set-up. Handler registration is modelled by `MainLoop.Dispatch`.
- The internals of `keepAlive` and `receive` are left out, and so are wire framing and status timeouts. These belong to the protocol library. The model records the two calls as actions, and it takes the callbacks `receive` fires as the `events` list.
- What `play()` and `finishPlaying()` do inside the speaker library is left out, including draining, stopping and queue overflow. The model records only that they are called.
- Audio sample contents and the contents of the mic and speaker buffers are left out. Only the byte counts are modelled.
- Electrical pin semantics are left out. `analogWrite` is an update to a pin-to-value map.
- Clock sampling is simplified. `millis()` is read once per pass (`now`), while the firmware reads it separately in the frame callback and in `playNextLEDNote`.
- Integer widths are fixed at 32 bits. The model assumes `unsigned int` and `unsigned long` are both 32 bits wide, as on the 32-bit boards that have the DAC the speaker needs. Truncation of `playStartTime` to a 16-bit `unsigned int` is not modelled. Nothing is claimed about timing across a clock wrap beyond `LedNotes.ElapsedLater`.
- The `size` argument of `BVSP_streamReceived` (arduinocode.c:217) is taken as input but never used, as in the source.
- The `payloadSize` argument of `BVSP_frameReceived` (arduinocode.c:178) is unused by the handler. The model does not take it at all.
- The model assumes that only the sketch's own calls change the inbound mode (`bvsp.inboundMode`) and the recording flag (`bvsm.isRecording`). In particular, it assumes `keepAlive`, `receive` and the microphone library never change them. The firmware re-reads both library fields on every pass (arduinocode.c:136, 147, 161). If a library reset either field, the model would miss a switch or a start that the firmware then makes.
- Library byte counts are taken as non-negative. The firmware stores the counts returned by `bvsm.read` and `getReceivedStream` in an `int` (arduinocode.c:151, 220) and passes them on unchanged. The model's `micRead` and `got` are `nat`, so a negative return cannot be represented.
- Reactors.StreamReceived: the enqueued count is stated equal to whatever count the library returns, taken as non-negative, and is not bounded by `SPEAKER_BUFFER_SIZE` (128). The library's guarantee that a read honours its maximum is not part of this model.
- MainLoop.Forward: the sent count is stated equal to the count the microphone library returns, taken as non-negative, and is not bounded by `MIC_BUFFER_SIZE` (64), for the same reason.
- MainLoop.ArbitrateSends: the sent count is not bounded by `MIC_BUFFER_SIZE`, as for `MainLoop.Forward`.
- MainLoop.LoopSends: the sent count is not bounded by `MIC_BUFFER_SIZE`, as for `MainLoop.Forward`.
- The second argument of `setAudioInput` is always `DEFAULT` (arduinocode.c:138), so the `SetAudioInput` action records only the input pin.
- The calls to `getReceivedBytes` and `getReceivedByte` are not recorded as actions. They only copy out a frame `receive()` has already taken in, so their answers are inputs to `Commands.Decode`.

=== FILE: board.dfy ===
/** Shared vocabulary of the BitVoicer firmware model: the fixed configuration
    constants, the process-wide state record, and the actions a step emits
    towards the protocol, microphone, speaker and pin collaborators. */
module Board {

  /** An 8-bit unsigned value (`byte` on the board). */
  type Byte = x: int | 0 <= x < 0x100

  /** A 32-bit unsigned value: `millis()` and the stored start time. */
  type U32 = x: int | 0 <= x < 0x1_0000_0000

  const WordModulus: int := 0x1_0000_0000

  /** Analog pin the microphone samples. */
  const AudioInputPin: Byte := 7

  /** The three LED pins. */
  const RedLedPin: Byte := 6
  const YellowLedPin: Byte := 9
  const GreenLedPin: Byte := 10

  /** Capacities of the fixed transfer buffers. */
  const MicBufferSize: nat := 64
  const SpeakerBufferSize: nat := 128
  const ReceiveBufferSize: nat := 2

  /** Data-type tags of inbound protocol frames. */
  const DataTypeByte: Byte := 0x01
  const DataTypeBinary: Byte := 0x07

  /** An optional value. */
  datatype Option<+T> = None | Some(value: T)

  /** Data-flow mode of one direction of the protocol link. */
  datatype Mode = Framed | Stream

  /** One call the firmware makes on a collaborator, in the order made. */
  datatype Action =
    | KeepAlive
    | Receive
    | AnalogWrite(pin: Byte, value: Byte)
    | SetAudioInput(input: Byte)  // the reference argument is always DEFAULT, so it is not recorded
    | StartRecording
    | StopRecording
    | SetInboundMode(mode: Mode)
    | ReadMic(maxLength: nat)
    | SendStream(length: nat)
    | ReadStream(maxLength: nat)
    | Enqueue(length: nat)
    | FinishPlaying
    | Play

  /** Everything one iteration can observe or change: the microphone's
      recording flag, the link's two modes, the LED sequencer's flag and start
      time, and the last value written to each pin. */
  datatype Firmware = Firmware(
    recording: bool,
    inboundMode: Mode,
    outboundMode: Mode,
    playLEDNotes: bool,
    playStartTime: U32,
    pins: map<Byte, Byte>)

  /** The state a step leaves behind and the collaborator calls it made. */
  datatype Step = Step(state: Firmware, actions: seq<Action>)

  /** The sequencer's declared initial values; no pin has been written. */
  const Initial: Firmware :=
    Firmware(false, Framed, Framed, false, 0, map[])

  /** Kinds of action whose occurrences the capture and speaker properties
      count. */
  predicate IsMicRead(a: Action) { a.ReadMic? }
  predicate IsSend(a: Action) { a.SendStream? }
  predicate IsEnqueue(a: Action) { a.Enqueue? }

  /** How many actions of `acts` satisfy `p`. */
  function Occurrences(acts: seq<Action>, p: Action -> bool): (n: nat)
    ensures n <= |acts|
    ensures n == 0 <==> forall a :: a in acts ==> !p(a)
    decreases |acts|
  {
    if acts == [] then 0
    else (if p(acts[0]) then 1 else 0) + Occurrences(acts[1..], p)
  }

  /** Counting over a concatenation adds the counts of its parts. */
  lemma {:induction false} OccurrencesAppend(a: seq<Action>, b: seq<Action>, p: Action -> bool)
    ensures Occurrences(a + b, p) == Occurrences(a, p) + Occurrences(b, p)
    decreases |a|
  {
    if a != [] {
      assert (a + b)[0] == a[0];
      assert (a + b)[1..] == a[1..] + b;
      OccurrencesAppend(a[1..], b, p);
    } else {
      assert a + b == b;
    }
  }

  /** True when `a` is an analog write to `p`. */
  predicate WritesPin(a: Action, p: Byte) {
    a.AnalogWrite? && a.pin == p
  }

  /** The pin map after performing the analog writes among `acts` in order. */
  function ApplyWrites(pins: map<Byte, Byte>, acts: seq<Action>): map<Byte, Byte>
    decreases |acts|
  {
    if acts == [] then pins
    else
      var next := if acts[0].AnalogWrite? then pins[acts[0].pin := acts[0].value] else pins;
      ApplyWrites(next, acts[1..])
  }

  /** Performing two batches of actions one after the other is performing
      their concatenation. */
  lemma {:induction false} ApplyWritesAppend(pins: map<Byte, Byte>, a: seq<Action>, b: seq<Action>)
    ensures ApplyWrites(pins, a + b) == ApplyWrites(ApplyWrites(pins, a), b)
    decreases |a|
  {
    if a != [] {
      var next := if a[0].AnalogWrite? then pins[a[0].pin := a[0].value] else pins;
      assert (a + b)[0] == a[0];
      assert (a + b)[1..] == a[1..] + b;
      ApplyWritesAppend(next, a[1..], b);
      assert ApplyWrites(pins, a) == ApplyWrites(next, a[1..]);
      assert ApplyWrites(pins, a + b) == ApplyWrites(next, a[1..] + b);
    } else {
      assert a + b == b;
    }
  }

  /** A pin that no action writes keeps its value (or stays unwritten). */
  lemma {:induction false} ApplyWritesUntouched(pins: map<Byte, Byte>, acts: seq<Action>, p: Byte)
    requires forall a :: a in acts ==> !WritesPin(a, p)
    ensures p in ApplyWrites(pins, acts) <==> p in pins
    ensures p in pins ==> ApplyWrites(pins, acts)[p] == pins[p]
    decreases |acts|
  {
    if acts != [] {
      assert acts[0] in acts;
      var next := if acts[0].AnalogWrite? then pins[acts[0].pin := acts[0].value] else pins;
      forall a | a in acts[1..] ensures !WritesPin(a, p) {
        assert a in acts;
      }
      ApplyWritesUntouched(next, acts[1..], p);
    }
  }

  /** A batch made of no analog writes leaves the pin map as it was. */
  lemma {:induction false} ApplyWritesNone(pins: map<Byte, Byte>, acts: seq<Action>)
    requires forall a :: a in acts ==> !a.AnalogWrite?
    ensures ApplyWrites(pins, acts) == pins
    decreases |acts|
  {
    if acts != [] {
      assert acts[0] in acts;
      forall a | a in acts[1..] ensures !a.AnalogWrite? {
        assert a in acts;
      }
      ApplyWritesNone(pins, acts[1..]);
    }
  }
}

=== FILE: commands.dfy ===
/** The command dispatcher: what an inbound data frame asks the board to do. */
module Commands {
  import opened Board

  /** The trigger byte that starts the LED note timeline. */
  const StartNotesByte: Byte := 255

  /** The three outcomes of a data frame. */
  datatype Command =
    | WritePin(pin: Byte, value: Byte)
    | StartNotes
    | NoCommand

  /** Decodes a frame from its data-type tag, the bytes the protocol handed
      over when asked for `ReceiveBufferSize` of them, and the byte it hands
      over for a single-byte frame. The two getters only copy out the frame
      `receive()` has already taken in, so their answers are inputs here and
      their calls are not recorded as actions; the stream handler's fetch is
      recorded because it is what bounds the audio handed to the speaker. */
  function Decode(dataType: Byte, received: seq<Byte>, byteValue: Byte): (c: Command)
    ensures c.WritePin? <==> dataType == DataTypeBinary && |received| == ReceiveBufferSize
    ensures c.WritePin? ==> c.pin == received[0] && c.value == received[1]
    ensures c.StartNotes? <==> dataType == DataTypeByte && byteValue == StartNotesByte
  {
    if dataType == DataTypeBinary then
      if |received| == ReceiveBufferSize then WritePin(received[0], received[1])
      else NoCommand
    else if dataType == DataTypeByte then
      if byteValue == StartNotesByte then StartNotes else NoCommand
    else NoCommand
  }

  /** Carries out a decoded command at clock reading `now`. */
  function Execute(s: Firmware, c: Command, now: U32): (r: Step)
    ensures c.WritePin? ==> r.actions == [AnalogWrite(c.pin, c.value)]
    ensures !c.WritePin? ==> r.actions == []
    ensures r.state.pins == ApplyWrites(s.pins, r.actions)
    ensures c.StartNotes? ==> r.state.playLEDNotes && r.state.playStartTime == now
    ensures !c.StartNotes? ==>
      r.state.playLEDNotes == s.playLEDNotes && r.state.playStartTime == s.playStartTime
    ensures r.state == s.(pins := r.state.pins, playLEDNotes := r.state.playLEDNotes,
                          playStartTime := r.state.playStartTime)
  {
    match c
    case WritePin(p, v) => Step(s.(pins := s.pins[p := v]), [AnalogWrite(p, v)])
    case StartNotes => Step(s.(playLEDNotes := true, playStartTime := now), [])
    case NoCommand => Step(s, [])
  }

  /** The frame-received handler. */
  function FrameReceived(s: Firmware, dataType: Byte, received: seq<Byte>, byteValue: Byte, now: U32): (r: Step)
    ensures r == Execute(s, Decode(dataType, received, byteValue), now)
    ensures r.actions != [] <==> dataType == DataTypeBinary && |received| == ReceiveBufferSize
    ensures dataType == DataTypeBinary && |received| == ReceiveBufferSize ==>
      && r.actions == [AnalogWrite(received[0], received[1])]
      && r.state == s.(pins := s.pins[received[0] := received[1]])
    ensures dataType == DataTypeByte && byteValue == StartNotesByte ==>
      r.state == s.(playLEDNotes := true, playStartTime := now)
    ensures !(dataType == DataTypeBinary && |received| == ReceiveBufferSize) &&
            !(dataType == DataTypeByte && byteValue == StartNotesByte) ==>
      r == Step(s, [])
  {
    if dataType == DataTypeBinary then
      if |received| == ReceiveBufferSize then
        Step(s.(pins := s.pins[received[0] := received[1]]), [AnalogWrite(received[0], received[1])])
      else Step(s, [])
    else if dataType == DataTypeByte then
      if byteValue == StartNotesByte then Step(s.(playLEDNotes := true, playStartTime := now), [])
      else Step(s, [])
    else Step(s, [])
  }
}

=== FILE: led_notes.dfy ===
/** The LED note sequencer: once started, each tick lights the LED of the
    note being played at the elapsed time, on a fixed timeline of 11.5 s. */
module LedNotes {
  import opened Board

  /** The three note channels (C, D and E). */
  datatype Led = Red | Yellow | Green

  function PinOf(l: Led): (p: Byte)
    ensures p in LedPins
  {
    match l
    case Red => RedLedPin
    case Yellow => YellowLedPin
    case Green => GreenLedPin
  }

  const LedPins: set<Byte> := {RedLedPin, YellowLedPin, GreenLedPin}

  /** Value written to light an LED fully. */
  const FullIntensity: Byte := 255

  /** Before this many milliseconds no note is lit. */
  const PreRoll: nat := 1000

  /** At this many milliseconds the timeline ends. */
  const FinalCutoff: nat := 11500

  /** One row of the timeline: from `threshold` ms on, `led` is lit. */
  datatype Note = Note(threshold: nat, led: Led)

  /** The timeline as a table, latest note first. */
  const Schedule: seq<Note> := [
    Note(9900, Red), Note(9370, Red), Note(8900, Yellow), Note(8610, Red),
    Note(8230, Yellow), Note(7970, Yellow), Note(7470, Red), Note(6760, Green),
    Note(6350, Red), Note(5880, Yellow), Note(5560, Red), Note(5180, Yellow),
    Note(4890, Yellow), Note(4420, Red), Note(3810, Green), Note(3420, Red),
    Note(2930, Yellow), Note(2560, Red), Note(2200, Yellow), Note(1930, Yellow),
    Note(1470, Red), Note(1000, Green)]

  /** Each row's threshold is below the one before it. */
  predicate Descending(table: seq<Note>) {
    forall i :: 0 < i < |table| ==> table[i].threshold < table[i - 1].threshold
  }

  /** In a descending table every later row has a smaller threshold. */
  lemma {:induction false} DescendingBelow(table: seq<Note>, i: nat, j: nat)
    requires Descending(table)
    requires i < j < |table|
    ensures table[j].threshold < table[i].threshold
    decreases j - i
  {
    if j > i + 1 {
      DescendingBelow(table, i, j - 1);
    }
  }

  /** Milliseconds since `start`, computed as the board's unsigned 32-bit
      subtraction, which wraps when `millis()` has rolled over. */
  function Elapsed(now: U32, start: U32): (e: U32)
    ensures start <= now ==> e == now - start
    ensures now < start ==> e == WordModulus - start + now
  {
    (now - start) % WordModulus
  }

  /** The clock reading `d` ms after `start`, wrapping like `millis()`. */
  function Later(start: U32, d: U32): U32 {
    (start + d) % WordModulus
  }

  /** Elapsed time measured `d` ms after a start is `d`, across a wrap too. */
  lemma ElapsedLater(start: U32, d: U32)
    ensures Elapsed(Later(start, d), start) == d
  {
    if start + d >= WordModulus {
      assert Later(start, d) == start + d - WordModulus;
    }
  }

  /** The note lit at `elapsed` ms, as the if/else ladder of the firmware
      decides it (largest threshold first). */
  function NoteAt(elapsed: nat): (r: Option<Led>)
    requires elapsed < FinalCutoff
    ensures r == None <==> elapsed < PreRoll
  {
    if elapsed >= 9900 then Some(Red)
    else if elapsed >= 9370 then Some(Red)
    else if elapsed >= 8900 then Some(Yellow)
    else if elapsed >= 8610 then Some(Red)
    else if elapsed >= 8230 then Some(Yellow)
    else if elapsed >= 7970 then Some(Yellow)
    else if elapsed >= 7470 then Some(Red)
    else if elapsed >= 6760 then Some(Green)
    else if elapsed >= 6350 then Some(Red)
    else if elapsed >= 5880 then Some(Yellow)
    else if elapsed >= 5560 then Some(Red)
    else if elapsed >= 5180 then Some(Yellow)
    else if elapsed >= 4890 then Some(Yellow)
    else if elapsed >= 4420 then Some(Red)
    else if elapsed >= 3810 then Some(Green)
    else if elapsed >= 3420 then Some(Red)
    else if elapsed >= 2930 then Some(Yellow)
    else if elapsed >= 2560 then Some(Red)
    else if elapsed >= 2200 then Some(Yellow)
    else if elapsed >= 1930 then Some(Yellow)
    else if elapsed >= 1470 then Some(Red)
    else if elapsed >= 1000 then Some(Green)
    else None
  }

  /** Index of the first row of `table` whose threshold `e` has reached,
      scanning from the front. */
  function Governing(table: seq<Note>, e: nat): (r: Option<nat>)
    ensures r.Some? ==> r.value < |table| && table[r.value].threshold <= e
    ensures r.Some? ==> forall j :: 0 <= j < r.value ==> e < table[j].threshold
    ensures r.None? <==> forall j :: 0 <= j < |table| ==> e < table[j].threshold
    decreases |table|
  {
    if table == [] then None
    else if table[0].threshold <= e then Some(0)
    else
      match Governing(table[1..], e)
      case None => None
      case Some(i) => Some(i + 1)
  }

  /** In a descending table the row found is the one with the largest
      threshold not above `e`. */
  lemma GoverningIsLargest(table: seq<Note>, e: nat)
    requires Descending(table)
    ensures Governing(table, e).Some? ==>
      forall j :: 0 <= j < |table| && table[j].threshold <= e ==>
        table[j].threshold <= table[Governing(table, e).value].threshold
  {
    var g := Governing(table, e);
    if g.Some? {
      forall j | 0 <= j < |table| && table[j].threshold <= e
        ensures table[j].threshold <= table[g.value].threshold
      {
        if j > g.value {
          DescendingBelow(table, g.value, j);
        }
      }
    }
  }

  /** The note lit at `e` according to the table. */
  function TableNote(e: nat): Option<Led> {
    match Governing(Schedule, e)
    case None => None
    case Some(i) => Some(Schedule[i].led)
  }

  lemma ScheduleDescending()
    ensures Descending(Schedule)
  {
  }

  /** A row whose threshold `e` has reached while no earlier row's has
      names the note the ladder lights. */
  lemma LadderMatchesRow(e: nat, i: nat)
    requires e < FinalCutoff
    requires i < |Schedule| && Schedule[i].threshold <= e
    requires forall j :: 0 <= j < i ==> e < Schedule[j].threshold
    ensures NoteAt(e) == Some(Schedule[i].led)
  {
    if i > 0 {
      assert e < Schedule[i - 1].threshold;
    }
  }

  /** A time before every row's threshold is in the silent pre-roll. */
  lemma BeforeEveryRow(e: nat)
    requires forall j :: 0 <= j < |Schedule| ==> e < Schedule[j].threshold
    ensures e < PreRoll && NoteAt(e) == None
  {
    assert e < Schedule[|Schedule| - 1].threshold;
  }

  /** The if/else ladder and the table lookup agree at every time before the
      cut-off. */
  lemma {:induction false} LadderIsTable(e: nat)
    requires e < FinalCutoff
    ensures NoteAt(e) == TableNote(e)
  {
    match Governing(Schedule, e)
    case None =>
      BeforeEveryRow(e);
    case Some(i) =>
      LadderMatchesRow(e, i);
  }

  /** Three stretches of the timeline, read off the table: the first note
      is green, the second red (so 1500 ms is red), and the last red. */
  lemma {:induction false} TableStretches(e: nat)
    ensures 1000 <= e < 1470 ==> TableNote(e) == Some(Green)
    ensures 1470 <= e < 1930 ==> TableNote(e) == Some(Red)
    ensures 9900 <= e < FinalCutoff ==> TableNote(e) == Some(Red)
  {
    if e < FinalCutoff {
      LadderIsTable(e);
    }
  }

  /** `l`'s pin has been written and is not dark. */
  predicate Lit(pins: map<Byte, Byte>, l: Led) {
    PinOf(l) in pins && pins[PinOf(l)] != 0
  }

  /** Every LED pin has been written 0. */
  predicate AllDark(pins: map<Byte, Byte>) {
    forall l :: PinOf(l) in pins && pins[PinOf(l)] == 0
  }

  /** Every LED pin has been written, at most one LED is lit, and a lit LED
      is at full intensity. */
  predicate SingleLit(pins: map<Byte, Byte>) {
    && (forall l :: PinOf(l) in pins)
    && (forall l1, l2 :: Lit(pins, l1) && Lit(pins, l2) ==> l1 == l2)
    && (forall l :: Lit(pins, l) ==> pins[PinOf(l)] == FullIntensity)
  }

  /** Writes 0 to each LED pin. */
  function AllLEDsOff(): (r: seq<Action>)
    ensures forall l :: AnalogWrite(PinOf(l), 0) in r
    ensures forall a :: a in r ==> a.AnalogWrite? && a.pin in LedPins && a.value == 0
  {
    [AnalogWrite(RedLedPin, 0), AnalogWrite(YellowLedPin, 0), AnalogWrite(GreenLedPin, 0)]
  }

  /** The writes one tick makes after clearing all LEDs. */
  function NoteWrites(elapsed: U32): (r: seq<Action>)
    ensures |r| <= 1
    ensures forall a :: a in r ==> a.AnalogWrite? && a.pin in LedPins
  {
    if elapsed >= FinalCutoff then [AnalogWrite(RedLedPin, 0)]
    else
      match NoteAt(elapsed)
      case None => []
      case Some(l) => [AnalogWrite(PinOf(l), FullIntensity)]
  }

  /** The LED the tick at `elapsed` lights, if any. */
  function TickNote(elapsed: U32): (r: Option<Led>)
    ensures elapsed >= FinalCutoff ==> r == None
    ensures elapsed < PreRoll ==> r == None
    ensures elapsed < FinalCutoff ==> r == TableNote(elapsed)
  {
    if elapsed >= FinalCutoff then None
    else LadderIsTable(elapsed); NoteAt(elapsed)
  }

  /** The pin map with the three LED pins cleared and then `note`, if any,
      at full intensity. */
  function ShowNote(pins: map<Byte, Byte>, note: Option<Led>): (r: map<Byte, Byte>)
    ensures forall p :: p !in LedPins ==>
      (p in r <==> p in pins) && (p in pins ==> r[p] == pins[p])
    ensures SingleLit(r)
    ensures forall l :: Lit(r, l) <==> note == Some(l)
  {
    var dark := pins[RedLedPin := 0][YellowLedPin := 0][GreenLedPin := 0];
    match note
    case None => dark
    case Some(l) => dark[PinOf(l) := FullIntensity]
  }

  /** Performing the tick's writes clears the three LED pins and then lights
      the tick's note. */
  lemma {:induction false} TickPins(pins: map<Byte, Byte>, elapsed: U32)
    ensures ApplyWrites(pins, AllLEDsOff() + NoteWrites(elapsed)) == ShowNote(pins, TickNote(elapsed))
  {
    var off := AllLEDsOff();
    var dark := pins[RedLedPin := 0][YellowLedPin := 0][GreenLedPin := 0];
    ApplyWritesAppend(pins, off, NoteWrites(elapsed));
    assert off[1..][1..][1..] == [];
    assert ApplyWrites(pins, off) == dark;
    var w := NoteWrites(elapsed);
    if w != [] {
      assert w[1..] == [];
    }
  }

  /** One sequencer tick at clock reading `now`: clear the three LEDs, then
      light the note of the elapsed time, or end the timeline at the cut-off. */
  function PlayNextLEDNote(s: Firmware, now: U32): (r: Step)
    ensures |r.actions| >= 3 && r.actions[..3] == AllLEDsOff()
    ensures forall a :: a in r.actions ==> a.AnalogWrite? && a.pin in LedPins
    ensures r.state.pins == ApplyWrites(s.pins, r.actions)
    ensures r.state == s.(playLEDNotes := r.state.playLEDNotes, pins := r.state.pins)
    ensures r.state.playLEDNotes <==> s.playLEDNotes && Elapsed(now, s.playStartTime) < FinalCutoff
  {
    var elapsed := Elapsed(now, s.playStartTime);
    var acts := AllLEDsOff() + NoteWrites(elapsed);
    var playing := if elapsed >= FinalCutoff then false else s.playLEDNotes;
    Step(s.(playLEDNotes := playing, pins := ApplyWrites(s.pins, acts)), acts)
  }

  /** The pins a tick leaves: LEDs cleared, then the tick's note lit. */
  lemma {:induction false} TickShowsNote(s: Firmware, now: U32)
    ensures PlayNextLEDNote(s, now).state.pins ==
      ShowNote(s.pins, TickNote(Elapsed(now, s.playStartTime)))
  {
    TickPins(s.pins, Elapsed(now, s.playStartTime));
  }

  /** At or past the cut-off the sequencer stops with every LED dark. */
  lemma {:induction false} TickTerminates(s: Firmware, now: U32)
    requires Elapsed(now, s.playStartTime) >= FinalCutoff
    ensures !PlayNextLEDNote(s, now).state.playLEDNotes
    ensures AllDark(PlayNextLEDNote(s, now).state.pins)
  {
    TickShowsNote(s, now);
    assert TickNote(Elapsed(now, s.playStartTime)) == None;
  }

  /** After any tick at most one LED is lit, and it is lit fully. */
  lemma {:induction false} TickSingleLit(s: Firmware, now: U32)
    ensures SingleLit(PlayNextLEDNote(s, now).state.pins)
  {
    TickShowsNote(s, now);
  }

  /** During the pre-roll nothing is lit and the sequencer keeps running. */
  lemma {:induction false} TickPreRoll(s: Firmware, now: U32)
    requires s.playLEDNotes
    requires Elapsed(now, s.playStartTime) < PreRoll
    ensures PlayNextLEDNote(s, now).state.playLEDNotes
    ensures AllDark(PlayNextLEDNote(s, now).state.pins)
  {
    TickShowsNote(s, now);
    assert TickNote(Elapsed(now, s.playStartTime)) == None;
  }

  /** Before the cut-off the lit LED is the table's note for the elapsed
      time: the one paired with the largest threshold reached. */
  lemma {:induction false} TickFollowsTable(s: Firmware, now: U32, l: Led)
    requires Elapsed(now, s.playStartTime) < FinalCutoff
    ensures Lit(PlayNextLEDNote(s, now).state.pins, l) <==>
      TableNote(Elapsed(now, s.playStartTime)) == Some(l)
  {
    TickShowsNote(s, now);
  }

  /** A tick writes no pin other than the three LED pins. */
  lemma {:induction false} TickLeavesOtherPins(s: Firmware, now: U32, p: Byte)
    requires p !in LedPins
    ensures p in PlayNextLEDNote(s, now).state.pins <==> p in s.pins
    ensures p in s.pins ==> PlayNextLEDNote(s, now).state.pins[p] == s.pins[p]
  {
    TickShowsNote(s, now);
  }
}

=== FILE: main_loop.dfy ===
/** The main loop: service the link, dispatch the protocol's callbacks, keep
    microphone capture in step with the server's speech-recognition engine
    (SRE), forward captured audio, drain the speaker and advance the LED
    notes. */
module MainLoop {
  import opened Board
  import opened LedNotes
  import opened Commands
  import opened Reactors

  /** A callback the protocol fires from inside `receive()`, together with
      the answers its getters give the handler. */
  datatype Event =
    | FrameEvent(dataType: Byte, received: seq<Byte>, byteValue: Byte)
    | ModeEvent(outbound: Mode)
    | StreamEvent(size: int, got: nat)

  /** An action a callback handler may perform. */
  predicate IsReaction(a: Action) {
    a.AnalogWrite? || a.FinishPlaying? || a.ReadStream? || a.Enqueue?
  }

  /** Runs the handler registered for `e`: a data frame reaches the frame
      handler, a mode change the mode handler and incoming audio the stream
      handler. */
  function Dispatch(s: Firmware, e: Event, now: U32): (r: Step)
    ensures forall a :: a in r.actions ==> IsReaction(a)
    ensures r.state.recording == s.recording && r.state.inboundMode == s.inboundMode
    ensures r.state.pins == ApplyWrites(s.pins, r.actions)
    ensures e.FrameEvent? ==> r == FrameReceived(s, e.dataType, e.received, e.byteValue, now)
    ensures e.ModeEvent? ==> r.state == s.(outboundMode := e.outbound)
    ensures FinishPlaying in r.actions <==> e == ModeEvent(Framed)
    ensures e.StreamEvent? ==> r.state == s && |r.actions| == 2 && r.actions[0] == ReadStream(SpeakerBufferSize)
    ensures Enqueued(r.actions) == if e.StreamEvent? then e.got else 0
  {
    match e
    case FrameEvent(t, b, v) =>
      var r := FrameReceived(s, t, b, v, now);
      EnqueuedNone(r.actions);
      r
    case ModeEvent(m) =>
      var r := ModeChanged(s, m);
      ApplyWritesNone(s.pins, r.actions);
      EnqueuedNone(r.actions);
      r
    case StreamEvent(n, g) =>
      var r := StreamReceived(s, n, g);
      ApplyWritesNone(s.pins, r.actions);
      r
  }

  /** The audio the server sends in the stream callbacks among `events`. */
  function StreamBytes(events: seq<Event>): nat
    decreases |events|
  {
    if events == [] then 0
    else (if events[0].StreamEvent? then events[0].got else 0) + StreamBytes(events[1..])
  }

  /** Runs the handlers of the callbacks one `receive()` fires, in order. */
  function DispatchAll(s: Firmware, events: seq<Event>, now: U32): (r: Step)
    ensures forall a :: a in r.actions ==> IsReaction(a)
    ensures r.state.recording == s.recording && r.state.inboundMode == s.inboundMode
    ensures r.state.pins == ApplyWrites(s.pins, r.actions)
    ensures Enqueued(r.actions) == StreamBytes(events)
    ensures FinishPlaying in r.actions <==> ModeEvent(Framed) in events
    decreases |events|
  {
    if events == [] then Step(s, [])
    else
      var first := Dispatch(s, events[0], now);
      var rest := DispatchAll(first.state, events[1..], now);
      ApplyWritesAppend(s.pins, first.actions, rest.actions);
      EnqueuedAppend(first.actions, rest.actions);
      assert events == [events[0]] + events[1..];
      Step(rest.state, first.actions + rest.actions)
  }

  /** The inbound mode in force after the switches among `acts`, starting
      from `mode`. */
  function InboundAfter(mode: Mode, acts: seq<Action>): Mode
    decreases |acts|
  {
    if acts == [] then mode
    else InboundAfter(if acts[0].SetInboundMode? then acts[0].mode else mode, acts[1..])
  }

  /** Replaying `acts` from inbound mode `mode`, every stream send happens
      while the inbound mode is `Stream`. */
  predicate StreamSafe(mode: Mode, acts: seq<Action>)
    decreases |acts|
  {
    if acts == [] then true
    else if acts[0].SendStream? then mode == Stream && StreamSafe(mode, acts[1..])
    else StreamSafe(if acts[0].SetInboundMode? then acts[0].mode else mode, acts[1..])
  }

  /** The same property stated position by position. */
  ghost predicate NoFramedSend(mode: Mode, acts: seq<Action>) {
    forall i :: 0 <= i < |acts| && acts[i].SendStream? ==> InboundAfter(mode, acts[..i]) == Stream
  }

  /** The replay and the position-by-position statement agree. */
  lemma {:induction false} StreamSafeIffNoFramedSend(mode: Mode, acts: seq<Action>)
    ensures StreamSafe(mode, acts) <==> NoFramedSend(mode, acts)
    decreases |acts|
  {
    if acts != [] {
      var next := if acts[0].SetInboundMode? then acts[0].mode else mode;
      StreamSafeIffNoFramedSend(next, acts[1..]);
      assert acts[..0] == [];
      forall i | 1 <= i <= |acts|
        ensures InboundAfter(mode, acts[..i]) == InboundAfter(next, acts[1..][..i - 1])
      {
        assert acts[..i][1..] == acts[1..][..i - 1];
      }
      if StreamSafe(mode, acts) {
        forall i | 0 <= i < |acts| && acts[i].SendStream?
          ensures InboundAfter(mode, acts[..i]) == Stream
        {
          if i > 0 {
            assert acts[1..][i - 1] == acts[i];
          }
        }
      }
      if NoFramedSend(mode, acts) {
        forall j | 0 <= j < |acts[1..]| && acts[1..][j].SendStream?
          ensures InboundAfter(next, acts[1..][..j]) == Stream
        {
          assert acts[j + 1] == acts[1..][j];
        }
      }
    }
  }

  /** Replaying a concatenation replays its two parts one after the other. */
  lemma {:induction false} StreamSafeAppend(mode: Mode, a: seq<Action>, b: seq<Action>)
    ensures InboundAfter(mode, a + b) == InboundAfter(InboundAfter(mode, a), b)
    ensures StreamSafe(mode, a + b) <==> StreamSafe(mode, a) && StreamSafe(InboundAfter(mode, a), b)
    decreases |a|
  {
    if a == [] {
      assert a + b == b;
    } else {
      var next := if a[0].SetInboundMode? then a[0].mode else mode;
      assert (a + b)[0] == a[0];
      assert (a + b)[1..] == a[1..] + b;
      StreamSafeAppend(next, a[1..], b);
    }
  }

  /** Actions that neither switch the inbound mode nor send leave both the
      mode and stream safety alone. */
  lemma {:induction false} QuietActions(mode: Mode, acts: seq<Action>)
    requires forall a :: a in acts ==> !a.SetInboundMode? && !a.SendStream?
    ensures StreamSafe(mode, acts)
    ensures InboundAfter(mode, acts) == mode
    decreases |acts|
  {
    if acts != [] {
      assert acts[0] in acts;
      forall a | a in acts[1..] ensures !a.SetInboundMode? && !a.SendStream? {
        assert a in acts;
      }
      QuietActions(mode, acts[1..]);
    }
  }

  /** Starts capture if it is not running: select the audio input, then
      start recording. */
  function EnsureRecording(s: Firmware): (r: Step)
    ensures r.state == s.(recording := true)
    ensures StartRecording in r.actions <==> !s.recording
    ensures !s.recording ==> r.actions == [SetAudioInput(AudioInputPin), StartRecording]
    ensures s.recording ==> r.actions == []
  {
    if s.recording then Step(s, [])
    else Step(s.(recording := true), [SetAudioInput(AudioInputPin), StartRecording])
  }

  /** The mode switch the firmware makes before sending: to `Stream` when
      the inbound mode is `Framed`, none otherwise. */
  function SwitchToStream(mode: Mode): seq<Action> {
    if mode == Framed then [SetInboundMode(Stream)] else []
  }

  /** Forwarding that finds the inbound mode `Stream`: read, then send. */
  lemma ForwardFromStream(micRead: nat)
    ensures var acts := [ReadMic(MicBufferSize), SendStream(micRead)];
      && StreamSafe(Stream, acts) && InboundAfter(Stream, acts) == Stream
      && Occurrences(acts, IsMicRead) == 1 && Occurrences(acts, IsSend) == 1
  {
    var acts := [ReadMic(MicBufferSize), SendStream(micRead)];
    assert acts[1..] == [SendStream(micRead)];
    assert acts[1..][1..] == [];
    assert StreamSafe(Stream, acts[1..]) && InboundAfter(Stream, acts[1..]) == Stream;
  }

  /** Forwarding that finds the inbound mode `Framed`: switch, read, send. */
  lemma ForwardFromFramed(micRead: nat)
    ensures var acts := [SetInboundMode(Stream), ReadMic(MicBufferSize), SendStream(micRead)];
      && StreamSafe(Framed, acts) && InboundAfter(Framed, acts) == Stream
      && Occurrences(acts, IsMicRead) == 1 && Occurrences(acts, IsSend) == 1
  {
    var acts := [SetInboundMode(Stream), ReadMic(MicBufferSize), SendStream(micRead)];
    assert acts[1..] == [ReadMic(MicBufferSize), SendStream(micRead)];
    ForwardFromStream(micRead);
  }

  /** What forwarding does, whatever the inbound mode it finds. */
  lemma {:induction false} ForwardActions(mode: Mode, micRead: nat)
    ensures var acts := SwitchToStream(mode) + [ReadMic(MicBufferSize), SendStream(micRead)];
      && |acts| == (if mode == Framed then 3 else 2)
      && acts[|acts| - 2] == ReadMic(MicBufferSize) && acts[|acts| - 1] == SendStream(micRead)
      && (SetInboundMode(Stream) in acts <==> mode == Framed)
      && (forall a :: a in acts && a.SetInboundMode? ==> a == SetInboundMode(Stream))
      && (forall a :: a in acts ==> a.SetInboundMode? || a.ReadMic? || a.SendStream?)
      && (forall a :: a in acts && a.SendStream? ==> a.length == micRead)
      && Occurrences(acts, IsMicRead) == 1 && Occurrences(acts, IsSend) == 1
      && StreamSafe(mode, acts) && InboundAfter(mode, acts) == Stream
  {
    var acts := SwitchToStream(mode) + [ReadMic(MicBufferSize), SendStream(micRead)];
    if mode == Framed {
      assert acts == [SetInboundMode(Stream), ReadMic(MicBufferSize), SendStream(micRead)];
      ForwardFromFramed(micRead);
    } else {
      assert acts == [ReadMic(MicBufferSize), SendStream(micRead)];
      ForwardFromStream(micRead);
    }
  }

  /** Forwards one batch of captured audio: switch the inbound mode to
      `Stream` if it is `Framed`, read up to a mic buffer of samples and send
      the `micRead` bytes obtained. */
  function Forward(s: Firmware, micRead: nat): (r: Step)
    ensures r.state == s.(inboundMode := Stream)
    ensures |r.actions| == if s.inboundMode == Framed then 3 else 2
    ensures r.actions[|r.actions| - 2] == ReadMic(MicBufferSize)
    ensures r.actions[|r.actions| - 1] == SendStream(micRead)
    ensures SetInboundMode(Stream) in r.actions <==> s.inboundMode == Framed
    ensures forall a :: a in r.actions && a.SetInboundMode? ==> a == SetInboundMode(Stream)
    ensures forall a :: a in r.actions ==> a.SetInboundMode? || a.ReadMic? || a.SendStream?
    ensures forall a :: a in r.actions && a.SendStream? ==> a.length == micRead
    ensures Occurrences(r.actions, IsMicRead) == 1 && Occurrences(r.actions, IsSend) == 1
    ensures StreamSafe(s.inboundMode, r.actions)
    ensures InboundAfter(s.inboundMode, r.actions) == Stream
  {
    ForwardActions(s.inboundMode, micRead);
    Step(s.(inboundMode := Stream), SwitchToStream(s.inboundMode) + [ReadMic(MicBufferSize), SendStream(micRead)])
  }

  /** Stops capture if it is running. */
  function StopCapture(s: Firmware): (r: Step)
    ensures r.state == s.(recording := false)
    ensures StopRecording in r.actions <==> s.recording
    ensures forall a :: a in r.actions ==> a == StopRecording
    ensures |r.actions| == if s.recording then 1 else 0
  {
    if s.recording then Step(s.(recording := false), [StopRecording]) else Step(s, [])
  }

  /** Actions that neither switch, send nor write a pin, followed by a
      stream-safe batch with no pin writes, are stream-safe together. */
  lemma {:induction false} QuietThenForward(mode: Mode, pre: seq<Action>, post: seq<Action>)
    requires forall a :: a in pre ==> !a.SetInboundMode? && !a.SendStream? && !a.AnalogWrite?
    requires forall a :: a in post ==> !a.AnalogWrite?
    requires StreamSafe(mode, post)
    ensures StreamSafe(mode, pre + post)
    ensures InboundAfter(mode, pre + post) == InboundAfter(mode, post)
    ensures forall a :: a in pre + post ==> !a.AnalogWrite?
  {
    QuietActions(mode, pre);
    StreamSafeAppend(mode, pre, post);
  }

  /** Starting capture if needed and then forwarding: stream-safe, ending in
      `Stream`, switching (to `Stream`) exactly when the mode was `Framed`,
      and writing no pin. */
  lemma {:induction false} StartThenForward(s: Firmware, micRead: nat)
    ensures var start := EnsureRecording(s);
      var acts := start.actions + Forward(start.state, micRead).actions;
      && StreamSafe(s.inboundMode, acts) && InboundAfter(s.inboundMode, acts) == Stream
      && (SetInboundMode(Stream) in acts <==> s.inboundMode == Framed)
      && (forall a :: a in acts && a.SetInboundMode? ==> a == SetInboundMode(Stream))
      && (forall a :: a in acts ==> !a.AnalogWrite?)
  {
    var start := EnsureRecording(s);
    var f := Forward(start.state, micRead);
    assert forall a :: a in start.actions ==> !a.SetInboundMode? && !a.SendStream? && !a.AnalogWrite?;
    QuietThenForward(s.inboundMode, start.actions, f.actions);
  }

  /** A call the capture step makes: to the microphone, or the protocol's
      mode switch and send. */
  predicate IsCaptureCall(a: Action) {
    a.SetAudioInput? || a.StartRecording? || a.StopRecording? ||
    a.SetInboundMode? || a.ReadMic? || a.SendStream?
  }

  /** The capture-and-forward part of one iteration: `sre` is what the
      protocol says about an available SRE, `micAvailable` whether the
      microphone holds samples, `micRead` how many bytes it hands over. */
  function Arbitrate(s: Firmware, sre: bool, micAvailable: bool, micRead: nat): (r: Step)
    ensures r.state == s.(recording := sre, inboundMode := r.state.inboundMode)
    ensures r.state.inboundMode == if sre && micAvailable then Stream else s.inboundMode
    ensures SetInboundMode(Stream) in r.actions <==> sre && micAvailable && s.inboundMode == Framed
    ensures forall a :: a in r.actions && a.SetInboundMode? ==> a == SetInboundMode(Stream)
    ensures forall a :: a in r.actions ==> !a.AnalogWrite?
    ensures StreamSafe(s.inboundMode, r.actions)
    ensures InboundAfter(s.inboundMode, r.actions) == r.state.inboundMode
    ensures forall a :: a in r.actions ==> IsCaptureCall(a)
    ensures |r.actions| == (if sre && !s.recording then 2 else 0)
                         + (if sre && micAvailable then (if s.inboundMode == Framed then 3 else 2) else 0)
                         + (if !sre && s.recording then 1 else 0)
  {
    if sre then
      var start := EnsureRecording(s);
      if micAvailable then
        var f := Forward(start.state, micRead);
        StartThenForward(s, micRead);
        Step(f.state, start.actions + f.actions)
      else
        QuietActions(s.inboundMode, start.actions);
        start
    else
      var stop := StopCapture(s);
      QuietActions(s.inboundMode, stop.actions);
      stop
  }

  /** Capture is started exactly when an SRE is available and the microphone
      was not recording, and stopped exactly when none is available and it
      was; the audio input is selected just before starting. */
  lemma ArbitrateCapture(s: Firmware, sre: bool, micAvailable: bool, micRead: nat)
    ensures StartRecording in Arbitrate(s, sre, micAvailable, micRead).actions <==> sre && !s.recording
    ensures StopRecording in Arbitrate(s, sre, micAvailable, micRead).actions <==> !sre && s.recording
    ensures sre && !s.recording ==>
      Arbitrate(s, sre, micAvailable, micRead).actions[..2] == [SetAudioInput(AudioInputPin), StartRecording]
  {
    if sre && micAvailable {
      var start := EnsureRecording(s);
      var f := Forward(start.state, micRead);
      assert Arbitrate(s, sre, micAvailable, micRead).actions == start.actions + f.actions;
      assert StartRecording !in f.actions && StopRecording !in f.actions;
    }
  }

  /** Audio is sent exactly when an SRE is available and the microphone has
      samples; the send carries the count the microphone read, right after a
      read of at most a mic buffer; with no SRE nothing is read or sent. */
  lemma ArbitrateSends(s: Firmware, sre: bool, micAvailable: bool, micRead: nat)
    ensures SendStream(micRead) in Arbitrate(s, sre, micAvailable, micRead).actions <==> sre && micAvailable
    ensures forall a :: a in Arbitrate(s, sre, micAvailable, micRead).actions && a.SendStream? ==>
      a.length == micRead
    ensures sre && micAvailable ==>
      var acts := Arbitrate(s, sre, micAvailable, micRead).actions;
      |acts| >= 2 && acts[|acts| - 2] == ReadMic(MicBufferSize) && acts[|acts| - 1] == SendStream(micRead)
    ensures !sre ==> forall a :: a in Arbitrate(s, sre, micAvailable, micRead).actions ==>
      !a.ReadMic? && !a.SendStream?
  {
  }

  /** The capture step reads the microphone once and sends once when an SRE
      is available and the microphone has samples, and otherwise does
      neither. */
  lemma {:induction false} ArbitrateReadsOnce(s: Firmware, sre: bool, micAvailable: bool, micRead: nat)
    ensures Occurrences(Arbitrate(s, sre, micAvailable, micRead).actions, IsMicRead) ==
      if sre && micAvailable then 1 else 0
    ensures Occurrences(Arbitrate(s, sre, micAvailable, micRead).actions, IsSend) ==
      if sre && micAvailable then 1 else 0
  {
    if sre && micAvailable {
      var start := EnsureRecording(s);
      var f := Forward(start.state, micRead);
      assert Arbitrate(s, sre, micAvailable, micRead).actions == start.actions + f.actions;
      OccurrencesAppend(start.actions, f.actions, IsMicRead);
      OccurrencesAppend(start.actions, f.actions, IsSend);
    }
  }

  /** The LED step at the end of a pass: a sequencer tick while notes are
      playing, nothing otherwise. */
  function NotesTick(s: Firmware, now: U32): (r: Step)
    ensures forall a :: a in r.actions ==> a.AnalogWrite? && a.pin in LedPins
    ensures r.state == s.(playLEDNotes := r.state.playLEDNotes, pins := r.state.pins)
    ensures r.state.pins == ApplyWrites(s.pins, r.actions)
    ensures !s.playLEDNotes ==> r == Step(s, [])
    ensures s.playLEDNotes ==> r.state.pins == ShowNote(s.pins, TickNote(Elapsed(now, s.playStartTime)))
    ensures r.state.playLEDNotes == (s.playLEDNotes && Elapsed(now, s.playStartTime) < FinalCutoff)
  {
    if s.playLEDNotes then
      TickShowsNote(s, now);
      PlayNextLEDNote(s, now)
    else Step(s, [])
  }

  /** A drain followed only by LED writes: the drain is the one place after
      which nothing but the LED step happens. */
  lemma PlayThenWrites(pre: seq<Action>, writes: seq<Action>)
    requires forall a :: a in writes ==> a.AnalogWrite? && a.pin in LedPins
    ensures var acts := pre + ([Play] + writes);
      exists k :: (0 <= k < |acts| && acts[k] == Play &&
                   forall j :: k < j < |acts| ==> acts[j].AnalogWrite? && acts[j].pin in LedPins)
  {
    var acts := pre + ([Play] + writes);
    var k := |pre|;
    assert acts[k] == Play;
    forall j | k < j < |acts| ensures acts[j].AnalogWrite? && acts[j].pin in LedPins {
      assert acts[j] == writes[j - k - 1];
    }
  }

  /** One pass of `loop()`. `events` are the callbacks `receive()` fires;
      the clock reads `now` throughout the pass. */
  function LoopStep(s: Firmware, events: seq<Event>, sre: bool, micAvailable: bool,
                    micRead: nat, now: U32): (r: Step)
    ensures |r.actions| >= 2 && r.actions[..2] == [KeepAlive, Receive]
    ensures Play in r.actions
    ensures exists k :: (0 <= k < |r.actions| && r.actions[k] == Play &&
                         forall j :: k < j < |r.actions| ==> r.actions[j].AnalogWrite? && r.actions[j].pin in LedPins)
  {
    var d := DispatchAll(s, events, now);
    var a := Arbitrate(d.state, sre, micAvailable, micRead);
    var led := NotesTick(a.state, now);
    PlayThenWrites(([KeepAlive, Receive] + d.actions) + a.actions, led.actions);
    Step(led.state, ([KeepAlive, Receive] + d.actions) + a.actions + ([Play] + led.actions))
  }

  /** After a pass capture is running exactly when an SRE was available. */
  lemma LoopCaptureFollowsSre(s: Firmware, events: seq<Event>, sre: bool, micAvailable: bool,
                              micRead: nat, now: U32)
    ensures LoopStep(s, events, sre, micAvailable, micRead, now).state.recording == sre
  {
  }

  /** An action that has no part in capture and forwarding: it neither
      switches the inbound mode, reads the microphone nor sends. */
  predicate CaptureFree(a: Action) {
    !a.SetInboundMode? && !a.ReadMic? && !a.SendStream?
  }

  /** What a pass does before the capture step has no part in capture. */
  lemma HeadCaptureFree(acts: seq<Action>)
    requires forall a :: a in acts ==> IsReaction(a)
    ensures forall x :: x in [KeepAlive, Receive] + acts ==> CaptureFree(x)
  {
  }

  /** What a pass does after the capture step has no part in capture. */
  lemma TailCaptureFree(acts: seq<Action>)
    requires forall a :: a in acts ==> a.AnalogWrite?
    ensures forall x :: x in [Play] + acts ==> CaptureFree(x)
  {
  }

  /** Capture-free actions placed around `mid` change neither the mode `mid`
      leaves nor whether `mid` is stream-safe, and every action with a part
      in capture comes from `mid`. */
  lemma {:induction false} QuietAround(mode: Mode, head: seq<Action>, mid: seq<Action>, tail: seq<Action>)
    requires forall a :: a in head ==> CaptureFree(a)
    requires forall a :: a in tail ==> CaptureFree(a)
    ensures StreamSafe(mode, head + mid + tail) <==> StreamSafe(mode, mid)
    ensures InboundAfter(mode, head + mid + tail) == InboundAfter(mode, mid)
    ensures forall x :: x in mid ==> x in head + mid + tail
    ensures forall x :: x in head + mid + tail && !CaptureFree(x) ==> x in mid
    ensures Occurrences(head + mid + tail, IsMicRead) == Occurrences(mid, IsMicRead)
    ensures Occurrences(head + mid + tail, IsSend) == Occurrences(mid, IsSend)
  {
    assert forall a :: a in head ==> !IsMicRead(a) && !IsSend(a);
    assert forall a :: a in tail ==> !IsMicRead(a) && !IsSend(a);
    OccurrencesAppend(head, mid, IsMicRead);
    OccurrencesAppend(head + mid, tail, IsMicRead);
    OccurrencesAppend(head, mid, IsSend);
    OccurrencesAppend(head + mid, tail, IsSend);
    QuietActions(mode, head);
    QuietActions(InboundAfter(mode, mid), tail);
    StreamSafeAppend(mode, head, mid);
    StreamSafeAppend(mode, head + mid, tail);
  }

  /** A pass is its callbacks' actions, then the capture step's, then the
      LED step's, each wrapped in capture-free bookkeeping. */
  lemma {:induction false} LoopShape(s: Firmware, events: seq<Event>, sre: bool,
                                      micAvailable: bool, micRead: nat, now: U32)
    ensures var d := DispatchAll(s, events, now);
      var a := Arbitrate(d.state, sre, micAvailable, micRead);
      var r := LoopStep(s, events, sre, micAvailable, micRead, now);
      && r.state.inboundMode == a.state.inboundMode
      && StreamSafe(s.inboundMode, r.actions) == StreamSafe(s.inboundMode, a.actions)
      && InboundAfter(s.inboundMode, r.actions) == InboundAfter(s.inboundMode, a.actions)
      && (forall x :: x in a.actions ==> x in r.actions)
      && (forall x :: x in r.actions && !CaptureFree(x) ==> x in a.actions)
      && Occurrences(r.actions, IsMicRead) == Occurrences(a.actions, IsMicRead)
      && Occurrences(r.actions, IsSend) == Occurrences(a.actions, IsSend)
  {
    var d := DispatchAll(s, events, now);
    var a := Arbitrate(d.state, sre, micAvailable, micRead);
    var led := NotesTick(a.state, now);
    HeadCaptureFree(d.actions);
    TailCaptureFree(led.actions);
    QuietAround(s.inboundMode, [KeepAlive, Receive] + d.actions, a.actions, [Play] + led.actions);
  }

  /** A pass switches the inbound mode only to forward audio: it switches
      (to `Stream`) exactly when an SRE and samples are available and the
      mode was `Framed`, and a pass that forwards nothing leaves the mode as
      it found it. */
  lemma {:induction false} LoopSwitches(s: Firmware, events: seq<Event>, sre: bool,
                                         micAvailable: bool, micRead: nat, now: U32)
    ensures var r := LoopStep(s, events, sre, micAvailable, micRead, now);
      && r.state.inboundMode == (if sre && micAvailable then Stream else s.inboundMode)
      && (SetInboundMode(Stream) in r.actions <==> sre && micAvailable && s.inboundMode == Framed)
      && (forall a :: a in r.actions && a.SetInboundMode? ==> a == SetInboundMode(Stream))
  {
    LoopShape(s, events, sre, micAvailable, micRead, now);
  }

  /** No pass sends audio while the inbound mode is `Framed`, and the mode a
      pass leaves is the one its switches establish. */
  lemma {:induction false} LoopNeverSendsFramed(s: Firmware, events: seq<Event>, sre: bool,
                                                 micAvailable: bool, micRead: nat, now: U32)
    ensures var r := LoopStep(s, events, sre, micAvailable, micRead, now);
      && StreamSafe(s.inboundMode, r.actions)
      && InboundAfter(s.inboundMode, r.actions) == r.state.inboundMode
  {
    LoopShape(s, events, sre, micAvailable, micRead, now);
  }

  /** The same, position by position: whenever a pass sends, the inbound
      mode established by the actions before the send is `Stream`. */
  lemma {:induction false} LoopNoFramedSend(s: Firmware, events: seq<Event>, sre: bool,
                                             micAvailable: bool, micRead: nat, now: U32)
    ensures NoFramedSend(s.inboundMode, LoopStep(s, events, sre, micAvailable, micRead, now).actions)
  {
    LoopNeverSendsFramed(s, events, sre, micAvailable, micRead, now);
    StreamSafeIffNoFramedSend(s.inboundMode, LoopStep(s, events, sre, micAvailable, micRead, now).actions);
  }

  /** A pass sends audio exactly when an SRE is available and the microphone
      has samples: then it reads the microphone once and sends once, carrying
      the count read; otherwise it neither reads nor sends. */
  lemma {:induction false} LoopSends(s: Firmware, events: seq<Event>, sre: bool,
                                      micAvailable: bool, micRead: nat, now: U32)
    ensures var r := LoopStep(s, events, sre, micAvailable, micRead, now);
      && (SendStream(micRead) in r.actions <==> sre && micAvailable)
      && (forall a :: a in r.actions && a.SendStream? ==> a.length == micRead)
      && (!sre ==> forall a :: a in r.actions ==> !a.ReadMic? && !a.SendStream?)
      && Occurrences(r.actions, IsMicRead) == (if sre && micAvailable then 1 else 0)
      && Occurrences(r.actions, IsSend) == (if sre && micAvailable then 1 else 0)
  {
    var d := DispatchAll(s, events, now);
    LoopShape(s, events, sre, micAvailable, micRead, now);
    ArbitrateSends(d.state, sre, micAvailable, micRead);
    ArbitrateReadsOnce(d.state, sre, micAvailable, micRead);
  }

  /** The last two actions of `mid` stay adjacent when `mid` is wrapped in
      other actions. */
  lemma LastPairAround(head: seq<Action>, mid: seq<Action>, tail: seq<Action>, x: Action, y: Action)
    requires |mid| >= 2 && mid[|mid| - 2] == x && mid[|mid| - 1] == y
    ensures exists i ::
      0 <= i < |head + mid + tail| - 1 && (head + mid + tail)[i] == x && (head + mid + tail)[i + 1] == y
  {
    var i := |head| + |mid| - 2;
    assert (head + mid + tail)[i] == x;
    assert (head + mid + tail)[i + 1] == y;
  }

  /** A pass's actions are the bookkeeping and callbacks, then the capture
      step's, then the drain and the LED step's. */
  lemma LoopActions(s: Firmware, events: seq<Event>, sre: bool, micAvailable: bool, micRead: nat, now: U32)
    ensures var d := DispatchAll(s, events, now);
      var a := Arbitrate(d.state, sre, micAvailable, micRead);
      LoopStep(s, events, sre, micAvailable, micRead, now).actions ==
        ([KeepAlive, Receive] + d.actions) + a.actions + ([Play] + NotesTick(a.state, now).actions)
  {
  }

  /** When a pass sends, the send comes right after the microphone read of
      up to a mic buffer. */
  lemma {:induction false} LoopReadThenSend(s: Firmware, events: seq<Event>, sre: bool,
                                             micAvailable: bool, micRead: nat, now: U32)
    requires sre && micAvailable
    ensures var r := LoopStep(s, events, sre, micAvailable, micRead, now);
      exists i ::
        0 <= i < |r.actions| - 1 && r.actions[i] == ReadMic(MicBufferSize) && r.actions[i + 1] == SendStream(micRead)
  {
    var d := DispatchAll(s, events, now);
    var a := Arbitrate(d.state, sre, micAvailable, micRead);
    LoopActions(s, events, sre, micAvailable, micRead, now);
    ArbitrateSends(d.state, sre, micAvailable, micRead);
    LastPairAround([KeepAlive, Receive] + d.actions, a.actions, [Play] + NotesTick(a.state, now).actions,
                   ReadMic(MicBufferSize), SendStream(micRead));
  }


  /** The pin map a pass leaves is the one its analog writes produce. */
  lemma {:induction false} LoopPinsFollowWrites(s: Firmware, events: seq<Event>, sre: bool,
                                                 micAvailable: bool, micRead: nat, now: U32)
    ensures var r := LoopStep(s, events, sre, micAvailable, micRead, now);
      r.state.pins == ApplyWrites(s.pins, r.actions)
  {
    var r := LoopStep(s, events, sre, micAvailable, micRead, now);
    var d := DispatchAll(s, events, now);
    var a := Arbitrate(d.state, sre, micAvailable, micRead);
    var led := NotesTick(a.state, now);
    var k := [KeepAlive, Receive];
    var head := k + d.actions;
    var tail := [Play] + led.actions;
    ApplyWritesNone(s.pins, k);
    ApplyWritesAppend(s.pins, k, d.actions);
    ApplyWritesNone(d.state.pins, a.actions);
    ApplyWritesAppend(s.pins, head, a.actions);
    ApplyWritesNone(a.state.pins, [Play]);
    ApplyWritesAppend(a.state.pins, [Play], led.actions);
    ApplyWritesAppend(s.pins, head + a.actions, tail);
  }

  /** While notes are playing after the callbacks, the pass's LED tick
      leaves at most one LED lit, at full intensity. */
  lemma {:induction false} LoopSingleLit(s: Firmware, events: seq<Event>, sre: bool,
                                          micAvailable: bool, micRead: nat, now: U32)
    requires DispatchAll(s, events, now).state.playLEDNotes
    ensures SingleLit(LoopStep(s, events, sre, micAvailable, micRead, now).state.pins)
  {
    var a := Arbitrate(DispatchAll(s, events, now).state, sre, micAvailable, micRead);
    TickSingleLit(a.state, now);
  }

  /** While notes are playing after the callbacks, the pass shows the
      table's note for the time since the notes started, and keeps playing
      exactly while that time is before the cut-off. */
  lemma {:induction false} LoopFollowsTable(s: Firmware, events: seq<Event>, sre: bool,
                                             micAvailable: bool, micRead: nat, now: U32)
    requires DispatchAll(s, events, now).state.playLEDNotes
    ensures var d := DispatchAll(s, events, now);
      var r := LoopStep(s, events, sre, micAvailable, micRead, now);
      && r.state.pins == ShowNote(d.state.pins, TickNote(Elapsed(now, d.state.playStartTime)))
      && r.state.playLEDNotes == (Elapsed(now, d.state.playStartTime) < FinalCutoff)
  {
    var d := DispatchAll(s, events, now);
    var a := Arbitrate(d.state, sre, micAvailable, micRead);
    assert a.state.pins == d.state.pins && a.state.playStartTime == d.state.playStartTime;
    assert a.state.playLEDNotes;
  }

  /** The speaker is handed exactly the audio the server streamed during
      the pass's callbacks. */
  lemma {:induction false} LoopEnqueues(s: Firmware, events: seq<Event>, sre: bool,
                                         micAvailable: bool, micRead: nat, now: U32)
    ensures Enqueued(LoopStep(s, events, sre, micAvailable, micRead, now).actions) == StreamBytes(events)
  {
    var d := DispatchAll(s, events, now);
    var a := Arbitrate(d.state, sre, micAvailable, micRead);
    var led := NotesTick(a.state, now);
    var head := [KeepAlive, Receive];
    var tail := [Play] + led.actions;
    EnqueuedNone(head);
    EnqueuedNone(a.actions);
    EnqueuedNone(tail);
    EnqueuedAppend(head, d.actions);
    EnqueuedAppend(head + d.actions, a.actions);
    EnqueuedAppend(head + d.actions + a.actions, tail);
  }

  /** A pass whose one callback is a pin command for a pin other than the
      LEDs leaves that pin at the commanded value. */
  lemma {:induction false} LoopWritesPin(s: Firmware, pin: Byte, value: Byte, byteValue: Byte, sre: bool,
                                          micAvailable: bool, micRead: nat, now: U32)
    requires pin !in LedPins
    ensures var r := LoopStep(s, [FrameEvent(DataTypeBinary, [pin, value], byteValue)],
                              sre, micAvailable, micRead, now);
      pin in r.state.pins && r.state.pins[pin] == value
  {
    var events := [FrameEvent(DataTypeBinary, [pin, value], byteValue)];
    var d := DispatchAll(s, events, now);
    var first := Dispatch(s, events[0], now);
    assert events[1..] == [];
    assert DispatchAll(first.state, events[1..], now) == Step(first.state, []);
    assert d.state == first.state;
    assert d.state.pins == s.pins[pin := value];
    var a := Arbitrate(d.state, sre, micAvailable, micRead);
    assert a.state.pins == d.state.pins;
  }

  /** A pass that finds the timeline over turns the notes off for good. */
  lemma {:induction false} LoopNotesEnd(s: Firmware, events: seq<Event>, sre: bool,
                                         micAvailable: bool, micRead: nat, now: U32)
    requires DispatchAll(s, events, now).state.playLEDNotes
    requires Elapsed(now, DispatchAll(s, events, now).state.playStartTime) >= FinalCutoff
    ensures !LoopStep(s, events, sre, micAvailable, micRead, now).state.playLEDNotes
    ensures AllDark(LoopStep(s, events, sre, micAvailable, micRead, now).state.pins)
  {
    var a := Arbitrate(DispatchAll(s, events, now).state, sre, micAvailable, micRead);
    TickTerminates(a.state, now);
  }

  /** What the collaborators report during one pass of the loop. */
  datatype Poll = Poll(events: seq<Event>, sre: bool, micAvailable: bool, micRead: nat, now: U32)

  /** Consecutive passes of the loop, their actions concatenated. */
  function Run(s: Firmware, polls: seq<Poll>): (r: Step)
    ensures r.state.pins == ApplyWrites(s.pins, r.actions)
    decreases |polls|
  {
    if polls == [] then Step(s, [])
    else
      var p := polls[0];
      var first := LoopStep(s, p.events, p.sre, p.micAvailable, p.micRead, p.now);
      var rest := Run(first.state, polls[1..]);
      LoopPinsFollowWrites(s, p.events, p.sre, p.micAvailable, p.micRead, p.now);
      ApplyWritesAppend(s.pins, first.actions, rest.actions);
      Step(rest.state, first.actions + rest.actions)
  }

  /** Over any number of passes no audio is sent while the inbound mode is
      `Framed`. */
  lemma {:induction false} RunNeverSendsFramed(s: Firmware, polls: seq<Poll>)
    ensures StreamSafe(s.inboundMode, Run(s, polls).actions)
    ensures NoFramedSend(s.inboundMode, Run(s, polls).actions)
    ensures InboundAfter(s.inboundMode, Run(s, polls).actions) == Run(s, polls).state.inboundMode
    decreases |polls|
  {
    if polls != [] {
      var p := polls[0];
      var first := LoopStep(s, p.events, p.sre, p.micAvailable, p.micRead, p.now);
      LoopNeverSendsFramed(s, p.events, p.sre, p.micAvailable, p.micRead, p.now);
      RunNeverSendsFramed(first.state, polls[1..]);
      StreamSafeAppend(s.inboundMode, first.actions, Run(first.state, polls[1..]).actions);
    }
    StreamSafeIffNoFramedSend(s.inboundMode, Run(s, polls).actions);
  }

  /** After any non-empty run, capture is running exactly when the last pass
      found an SRE available. */
  lemma {:induction false} RunCaptureFollowsSre(s: Firmware, polls: seq<Poll>)
    requires polls != []
    ensures Run(s, polls).state.recording == polls[|polls| - 1].sre
    decreases |polls|
  {
    var p := polls[0];
    var first := LoopStep(s, p.events, p.sre, p.micAvailable, p.micRead, p.now);
    LoopCaptureFollowsSre(s, p.events, p.sre, p.micAvailable, p.micRead, p.now);
    assert Run(s, polls).state == Run(first.state, polls[1..]).state;
    if |polls| > 1 {
      RunCaptureFollowsSre(first.state, polls[1..]);
    } else {
      assert polls[1..] == [];
    }
  }

  /** Callbacks other than data frames leave the sequencer alone and write
      no pin. */
  lemma {:induction false} NoFramesNoWrites(s: Firmware, events: seq<Event>, now: U32)
    requires forall e :: e in events ==> !e.FrameEvent?
    ensures DispatchAll(s, events, now).state.playLEDNotes == s.playLEDNotes
    ensures forall a :: a in DispatchAll(s, events, now).actions ==> !a.AnalogWrite?
    decreases |events|
  {
    if events != [] {
      assert events[0] in events;
      forall e | e in events[1..] ensures !e.FrameEvent? {
        assert e in events;
      }
      NoFramesNoWrites(Dispatch(s, events[0], now).state, events[1..], now);
    }
  }

  /** A pass with the notes off and no data frame writes no pin and keeps
      the notes off. */
  lemma {:induction false} IdlePass(s: Firmware, events: seq<Event>, sre: bool, micAvailable: bool,
                                    micRead: nat, now: U32)
    requires !s.playLEDNotes
    requires forall e :: e in events ==> !e.FrameEvent?
    ensures !LoopStep(s, events, sre, micAvailable, micRead, now).state.playLEDNotes
    ensures forall a :: a in LoopStep(s, events, sre, micAvailable, micRead, now).actions ==> !a.AnalogWrite?
  {
    NoFramesNoWrites(s, events, now);
    var d := DispatchAll(s, events, now);
    var a := Arbitrate(d.state, sre, micAvailable, micRead);
    var first := LoopStep(s, events, sre, micAvailable, micRead, now);
    LoopActions(s, events, sre, micAvailable, micRead, now);
    assert NotesTick(a.state, now) == Step(a.state, []);
    assert first.actions == ([KeepAlive, Receive] + d.actions) + a.actions + ([Play] + []);
    assert forall x :: x in first.actions ==> !x.AnalogWrite?;
  }

  /** While the notes are off and no data frame arrives, passes write no pin
      and the notes stay off. */
  lemma {:induction false} IdleRunWritesNoPin(s: Firmware, polls: seq<Poll>)
    requires !s.playLEDNotes
    requires forall p, e :: p in polls && e in p.events ==> !e.FrameEvent?
    ensures !Run(s, polls).state.playLEDNotes
    ensures forall a :: a in Run(s, polls).actions ==> !a.AnalogWrite?
    decreases |polls|
  {
    if polls != [] {
      var p := polls[0];
      assert p in polls;
      IdlePass(s, p.events, p.sre, p.micAvailable, p.micRead, p.now);
      var first := LoopStep(s, p.events, p.sre, p.micAvailable, p.micRead, p.now);
      forall q, e | q in polls[1..] && e in q.events ensures !e.FrameEvent? {
        assert q in polls;
      }
      IdleRunWritesNoPin(first.state, polls[1..]);
      assert Run(s, polls).actions == first.actions + Run(first.state, polls[1..]).actions;
    }
  }

  /** From power-on, with the notes off, nothing writes a pin until a data
      frame arrives. */
  lemma InitialRunWritesNoPin(polls: seq<Poll>)
    requires forall p, e :: p in polls && e in p.events ==> !e.FrameEvent?
    ensures forall a :: a in Run(Initial, polls).actions ==> !a.AnalogWrite?
  {
    IdleRunWritesNoPin(Initial, polls);
  }

  /** A trigger byte restarts the timeline whatever state it finds: ticks a
      given time after the trigger act alike, and light the table's note for
      that time. */
  lemma {:induction false} RetriggerRestartsTimeline(s1: Firmware, s2: Firmware, t: U32, d: U32,
                                                      b1: seq<Byte>, b2: seq<Byte>)
    ensures var a := FrameReceived(s1, DataTypeByte, b1, StartNotesByte, t).state;
      var b := FrameReceived(s2, DataTypeByte, b2, StartNotesByte, t).state;
      && PlayNextLEDNote(a, Later(t, d)).actions == PlayNextLEDNote(b, Later(t, d)).actions
      && PlayNextLEDNote(a, Later(t, d)).state.playLEDNotes == (d < FinalCutoff)
      && (d < FinalCutoff ==> forall l :: Lit(PlayNextLEDNote(a, Later(t, d)).state.pins, l) <==> TableNote(d) == Some(l))
  {
    var a := FrameReceived(s1, DataTypeByte, b1, StartNotesByte, t).state;
    ElapsedLater(t, d);
    if d < FinalCutoff {
      forall l {
        TickFollowsTable(a, Later(t, d), l);
      }
    }
  }

  /** Passes keep the sequencer's start time, and the notes run on until a
      tick finds the timeline over. */
  lemma LoopKeepsStartTime(s: Firmware, sre: bool, micAvailable: bool, micRead: nat, now: U32)
    ensures var r := LoopStep(s, [], sre, micAvailable, micRead, now).state;
      && r.playStartTime == s.playStartTime
      && r.playLEDNotes == (s.playLEDNotes && Elapsed(now, s.playStartTime) < FinalCutoff)
  {
  }

  /** A pass whose only callback is the trigger byte starts the notes at the
      pass's time. */
  lemma LoopTriggerStarts(s: Firmware, b: seq<Byte>, sre: bool, micAvailable: bool, micRead: nat, now: U32)
    ensures var r := LoopStep(s, [FrameEvent(DataTypeByte, b, StartNotesByte)], sre, micAvailable, micRead, now).state;
      r.playLEDNotes && r.playStartTime == now
  {
    var events := [FrameEvent(DataTypeByte, b, StartNotesByte)];
    assert events[1..] == [];
    var first := Dispatch(s, events[0], now);
    assert first.state.playLEDNotes && first.state.playStartTime == now;
    assert DispatchAll(first.state, [], now).state == first.state;
    var d := DispatchAll(s, events, now).state;
    assert d.playLEDNotes && d.playStartTime == now;
    assert Elapsed(now, now) == 0;
  }

  /** Trigger at time 0, then passes at 1500 ms and 12000 ms: the first
      lights the red LED (the 1470 ms row), the second ends the timeline. */
  lemma TimelineScenario(s: Firmware)
    ensures var s1 := LoopStep(s, [FrameEvent(DataTypeByte, [], StartNotesByte)], false, false, 0, 0).state;
      var s2 := LoopStep(s1, [], false, false, 0, 1500).state;
      var s3 := LoopStep(s2, [], false, false, 0, 12000).state;
      && s2.playLEDNotes && Lit(s2.pins, Red) && !Lit(s2.pins, Yellow) && !Lit(s2.pins, Green)
      && !s3.playLEDNotes && AllDark(s3.pins)
  {
    var s1 := LoopStep(s, [FrameEvent(DataTypeByte, [], StartNotesByte)], false, false, 0, 0).state;
    LoopTriggerStarts(s, [], false, false, 0, 0);
    var s2 := LoopStep(s1, [], false, false, 0, 1500).state;
    LoopKeepsStartTime(s1, false, false, 0, 1500);
    assert Elapsed(1500, 0) == 1500;
    var a2 := Arbitrate(DispatchAll(s1, [], 1500).state, false, false, 0).state;
    assert a2.playLEDNotes && a2.playStartTime == 0;
    TickShowsNote(a2, 1500);
    assert TickNote(1500) == Some(Red);
    var a3 := Arbitrate(DispatchAll(s2, [], 12000).state, false, false, 0).state;
    assert a3.playLEDNotes && a3.playStartTime == 0;
    assert Elapsed(12000, 0) == 12000;
    TickTerminates(a3, 12000);
  }
}

=== FILE: reactors.dfy ===
/** Reactions to the protocol's mode-changed and stream-received events. */
module Reactors {
  import opened Board

  /** The mode-changed handler. The protocol has already recorded the peer's
      new outbound mode (server to device) when it fires; when audio stops
      arriving the speaker is told to finish what it holds. */
  function ModeChanged(s: Firmware, outbound: Mode): (r: Step)
    ensures r.state == s.(outboundMode := outbound)
    ensures FinishPlaying in r.actions <==> outbound == Framed
    ensures forall a :: a in r.actions ==> a == FinishPlaying
    ensures |r.actions| <= 1
  {
    var s' := s.(outboundMode := outbound);
    if outbound == Framed then Step(s', [FinishPlaying]) else Step(s', [])
  }

  /** Total length of the audio handed to the speaker by `acts`. */
  function Enqueued(acts: seq<Action>): nat
    decreases |acts|
  {
    if acts == [] then 0
    else (if acts[0].Enqueue? then acts[0].length else 0) + Enqueued(acts[1..])
  }

  /** The audio handed over by two runs of actions adds up. */
  lemma {:induction false} EnqueuedAppend(a: seq<Action>, b: seq<Action>)
    ensures Enqueued(a + b) == Enqueued(a) + Enqueued(b)
    decreases |a|
  {
    if a == [] {
      assert a + b == b;
    } else {
      assert (a + b)[0] == a[0] && (a + b)[1..] == a[1..] + b;
      EnqueuedAppend(a[1..], b);
    }
  }

  /** Actions that enqueue nothing hand the speaker no audio. */
  lemma {:induction false} EnqueuedNone(acts: seq<Action>)
    requires forall a :: a in acts ==> !a.Enqueue?
    ensures Enqueued(acts) == 0
    decreases |acts|
  {
    if acts != [] {
      assert acts[0] in acts;
      assert forall a :: a in acts[1..] ==> a in acts;
      EnqueuedNone(acts[1..]);
    }
  }

  /** The stream-received handler: fetch up to a speaker buffer of decoded
      audio, of which the protocol hands over `got` bytes, and queue exactly
      those for playback. The event's own size argument is not consulted. */
  function StreamReceived(s: Firmware, size: int, got: nat): (r: Step)
    ensures r.state == s
    ensures Enqueued(r.actions) == got
    ensures |r.actions| == 2 && r.actions[0] == ReadStream(SpeakerBufferSize)
    ensures forall a :: a in r.actions ==> a.ReadStream? || a.Enqueue?
    ensures Occurrences(r.actions, IsEnqueue) == 1
  {
    var acts := [ReadStream(SpeakerBufferSize), Enqueue(got)];
    assert acts[1..] == [Enqueue(got)];
    assert acts[1..][1..] == [];
    assert Enqueued(acts[1..]) == got + Enqueued([]);
    Step(s, acts)
  }
}
